=== FILE: README.md ===
# Profile screen: shared access, avatar checks and the edit draft

This project is a Dafny model of the sequential logic in a web app's profile
screen (`Perfil`) and in the dialog that adds a shared-access user
(`AddSharedUserModal`). The backend is a hosted service. Every call into it
(the current identity, inserting and deleting `shared_access` rows, the avatar
upload, the profile update) is passed to the model as an outcome value. The
model does not implement those calls.

Modules, one per concern:

- `Wrappers`: `Option`, standing for the nullable values of the source.
- `Text`: `startsWith`, ASCII `toUpperCase`, `slice(0, n)` and `split(' ')`.
  `Join` is their partner, and there are round-trip lemmas both ways.
- `Initials`: `getInitials`. The result is tied to an independent definition:
  the characters at word starts.
- `ProfileForm`: the profile and identity records and the draft (`formData`).
  It has the edit mode (`Viewing`/`Editing`), the form-initialisation effect,
  `handleInputChange`, `handleSave` and `handleCancel`.
- `Avatar`: `handleFileChange`. The file is checked to be an image of at most
  5 MiB before any upload, and the upload's URL goes into the draft.
- `SharedUsers`: `handleAddSharedUser` and `handleRemoveSharedUser` on the
  local list of shared users.
- `AddSharedUserDialog`: the dialog's handlers. Each returns the fields that
  follow and an ordered trace of effects (callback, close, field updates).
- `ProfileScreen`: the screen together with its dialog. The dialog's
  `onAddUser` is the add handler and `onClose` hides the dialog. There are
  lemmas over whole edit sessions.

JavaScript truthiness is modelled explicitly:

- `!profile.telefone` holds when the phone is null or `""`.
- `if (avatarUrl)` rejects a null URL and also `""`.
- `name && whatsapp` is true when both are non-empty. There is no trimming.
- `x || ""` maps null to `""`.

## Model

| member | source | states |
|---|---|---|
| Text.Split | src/pages/Perfil.tsx:207 | `name.split(' ')` yields at least one piece. No piece contains a space, and joining the pieces with single spaces gives back the input. |
| Text.SplitJoin | src/pages/Perfil.tsx:207 | Splitting recovers any list of space-free pieces exactly, empty pieces included. This is the other half of the split/join round trip. |
| Text.Upper | src/pages/Perfil.tsx:210 | `toUpperCase` keeps the length and maps each character by its ASCII upper-case. No lower-case ASCII letter is left. |
| Text.Take | src/pages/Perfil.tsx:211 | `slice(0, n)` is the prefix of exactly min(n, length) characters, so it is the whole string when that is short enough. |
| Initials.FirstChars | src/pages/Perfil.tsx:208-209 | At most one character per piece, and exactly one per piece when no piece is empty. |
| Initials.FirstCharsOfSplit | src/pages/Perfil.tsx:207-209 | The first characters of the split pieces are exactly the characters at word starts (non-space, at index 0 or after a space), in order. |
| Initials.FirstCharsCountsNonEmpty | src/pages/Perfil.tsx:208-209 | An empty piece (from repeated, leading or trailing spaces) contributes nothing. The k-th character is the head of the k-th non-empty piece. |
| Initials.WordStartsSound | src/pages/Perfil.tsx:207-208 | Every collected character sits at an index that begins a word. |
| Initials.GetInitials | src/pages/Perfil.tsx:205-212 | `getInitials` returns at most 2 characters. They are the upper-cased word-start characters of the name, in order, cut to two. |
| Initials.InitialsAreWordStarts | src/pages/Perfil.tsx:205-212 | There are min(2, number of non-empty pieces) initials. Each is the upper-cased character at some word start, and none is a space. |
| Initials.BlankNameHasNoInitials | src/pages/Perfil.tsx:205-212 | An empty name, or one made only of spaces, has no initials. |
| ProfileForm.OrEmpty | src/pages/Perfil.tsx:119-123 | `value \|\| ""`: a null field reads as `""`, and a present one reads as itself. |
| ProfileForm.Set | src/pages/Perfil.tsx:129-132 | The spread update gives the named field the new value. Every other field keeps its old value. |
| ProfileForm.FormExtensionality | src/pages/Perfil.tsx:107-113 | Two drafts are equal exactly when they agree on all five keys. |
| ProfileForm.LoadProfile | src/pages/Perfil.tsx:116-126 | With both a profile and an identity, the draft becomes their projection (email from the identity, nulls as `""`). Otherwise nothing changes, and the mode never changes. |
| ProfileForm.LoadFromInitialState | src/pages/Perfil.tsx:107-126 | The screen starts in viewing (line 22) with all five draft fields empty (lines 107-113). Once the profile and the identity arrive, the form-initialisation effect (lines 116-126) gives their projection, still in viewing. |
| ProfileForm.StartEditing | src/pages/Perfil.tsx:326-332 | Editar enters editing and leaves the draft alone. |
| ProfileForm.RetypingIsNoChange | src/pages/Perfil.tsx:128-133 | Typing the value a field already holds leaves the screen state exactly as it was. |
| ProfileForm.LastInputWins | src/pages/Perfil.tsx:128-133 | Two changes to the same field keep only the last value, and the rest of the state is the same as after the last change alone. |
| ProfileForm.InputChange | src/pages/Perfil.tsx:128-133 | `handleInputChange` changes only the named field, and the mode is kept. |
| ProfileForm.Save | src/pages/Perfil.tsx:175-188 | Without a profile, Save is a no-op and issues no request. Otherwise it sends the draft's name, phone, address and avatar. It leaves editing exactly when the update succeeds and never changes the draft. |
| ProfileForm.Cancel | src/pages/Perfil.tsx:190-202 | Cancel always ends in viewing. With profile and identity present, the draft is reset to their projection. Otherwise the draft is kept. |
| ProfileForm.SaveIgnoresEmail | src/pages/Perfil.tsx:178-183 | The save request does not depend on the draft's email, so an edited email is never sent. |
| Avatar.Validate | src/pages/Perfil.tsx:142-160 | A file passes exactly when its type starts with `image/` and its size is at most 5·1024·1024. The type check comes first, and each rejection reason holds exactly in its own case. |
| Avatar.HandleFileChange | src/pages/Perfil.tsx:139-173 | Upload is attempted only for a present file that passes validation. A rejected file, a failed upload or an empty URL leaves the draft unchanged. A returned URL becomes the draft's avatar, and no other field ever changes. |
| Avatar.SizeBoundary | src/pages/Perfil.tsx:153-160 | An image of 5242880 bytes passes. One of 5242881 bytes is rejected as too large and no upload is attempted. |
| Avatar.TextFileRejected | src/pages/Perfil.tsx:143-150 | A `text/plain` file of any size is rejected as not an image, with no upload and the draft unchanged. |
| SharedUsers.AddSharedUser | src/pages/Perfil.tsx:48-92 | An insert is issued exactly when there is an identity and a non-empty phone. It carries the owner id, the phone and the raw name and WhatsApp. Only a returned row id appends `{id, name, whatsapp}`. Once the insert is issued, an error is reported with the store's message, a row id gives `Added`, and no error and no row give the silent `NothingReturned`. No identity, an unready profile, an error or no row all leave the list unchanged. |
| SharedUsers.AddAppendsOne | src/pages/Perfil.tsx:81-86 | A successful add grows the list by exactly one. The old list is kept as a prefix and the new entry is last. Every other outcome keeps the list. |
| SharedUsers.RemoveById | src/pages/Perfil.tsx:103 | The filter keeps exactly the entries whose id differs from the removed one. |
| SharedUsers.RemoveByIdDistributes | src/pages/Perfil.tsx:103 | Filtering works piecewise over concatenation, so survivors keep their relative order. |
| SharedUsers.RemoveAbsentId | src/pages/Perfil.tsx:103 | Filtering an id that is not in the list changes nothing. |
| SharedUsers.RemoveByIdIdempotent | src/pages/Perfil.tsx:103 | Removing the same id twice is the same as removing it once. |
| SharedUsers.RemoveByIdLength | src/pages/Perfil.tsx:103 | The list shrinks by exactly the number of entries carrying that id. |
| SharedUsers.RemoveSharedUser | src/pages/Perfil.tsx:94-106 | A failed delete leaves the list unchanged and reports the message. A successful one gives the id filter of the list: the entries with other ids, in their original order and multiplicity, and the list shrinks by exactly the count of that id. |
| SharedUsers.RemoveMiddleOfThree | src/pages/Perfil.tsx:100-105 | Deleting the middle one of three entries leaves the other two in their original order. |
| SharedUsers.AddThenRemove | src/pages/Perfil.tsx:81-105 | Adding under a fresh id and then removing that id restores the original list. |
| AddSharedUserDialog.ConfirmEffects | src/components/modals/AddSharedUserModal.tsx:19-22 | The confirm trace calls `onAddUser` once with the given strings and `onClose` once, and it leaves both fields empty. |
| AddSharedUserDialog.HandleAdd | src/components/modals/AddSharedUserModal.tsx:17-24 | With both fields non-empty, the trace is exactly callback, close, clear name, clear WhatsApp, and the fields end empty. Otherwise nothing happens. The fields always equal the replay of the trace. |
| AddSharedUserDialog.HandleAddCallsOnce | src/components/modals/AddSharedUserModal.tsx:17-24 | `onAddUser` fires exactly once, with the raw strings, exactly when both are non-empty, and `onClose` fires once with it. Otherwise there are no calls and the fields are kept. |
| AddSharedUserDialog.BlankButNonEmptyIsForwarded | src/components/modals/AddSharedUserModal.tsx:18 | No trimming: `(" ", " ")` is forwarded to `onAddUser`. |
| AddSharedUserDialog.Cancel | src/components/modals/AddSharedUserModal.tsx:46 | Cancelar calls `onClose` once and never `onAddUser`, and the fields are kept. |
| AddSharedUserDialog.OpenChange | src/components/modals/AddSharedUserModal.tsx:27 | `onOpenChange` calls `onClose` once whatever visibility is requested, and the fields are kept. |
| AddSharedUserDialog.TypeName | src/components/modals/AddSharedUserModal.tsx:38 | Typing a name sets only the name field and calls nothing. |
| AddSharedUserDialog.TypeWhatsapp | src/components/modals/AddSharedUserModal.tsx:42 | Typing a WhatsApp number sets only that field and calls nothing. |
| AddSharedUserDialog.CancelKeepsTypedText | src/components/modals/AddSharedUserModal.tsx:46 | After a cancel, confirming forwards the text typed before the cancel. |
| ProfileScreen.RunDialogEffects | src/pages/Perfil.tsx:432-436 | Carrying out a dialog trace leaves the edit state alone and gives the dialog the replayed fields. Any `onClose` hides the dialog, and without `onAddUser` calls the list is unchanged. |
| ProfileScreen.ConfirmDialog | src/pages/Perfil.tsx:432-436 | Confirming an incomplete dialog changes nothing on the screen. |
| ProfileScreen.CancelDialog | src/pages/Perfil.tsx:434 | Cancelling the dialog only hides it. |
| ProfileScreen.ConfirmFilledDialog | src/components/modals/AddSharedUserModal.tsx:17-24 | Confirming a filled dialog changes the list exactly as the add handler does with the typed strings. The dialog always ends hidden with empty fields, even when the insert fails. |
| ProfileScreen.ConfirmAppendsGrant | src/pages/Perfil.tsx:81-86 | With an identity, a loaded phone and a returned id, confirming appends exactly `{id, name, whatsapp}`. |
| ProfileScreen.RunEdits | src/pages/Perfil.tsx:128-188 | Typing, avatar changes and saves never leave viewing for editing. |
| ProfileScreen.EditingPersists | src/pages/Perfil.tsx:185-187 | In any session of typing, avatar picks and failed saves, the screen stays in editing. |
| ProfileScreen.CancelRestoresDraft | src/pages/Perfil.tsx:190-202 | Start from a draft in step with the profile, enter editing, make any edits, and Cancel. The result is that same draft, in viewing mode. |
| ProfileScreen.UploadWhileViewingSavedLater | src/pages/Perfil.tsx:163-187 | An avatar uploaded while viewing stays in the draft. The next Editar followed by a successful Salvar sends its URL and returns to viewing. |
| ProfileScreen.UploadWhileViewingDiverges | src/pages/Perfil.tsx:139-173 | An accepted upload with a new URL changes the draft while viewing, so the draft no longer matches the profile. |

## Behaviour worth noting

- Cancel resets the draft only when both the profile and the identity are
  present (src/pages/Perfil.tsx:193). Otherwise the typed text survives the
  cancel (`ProfileForm.Cancel`).
- The avatar handler never checks the edit mode (src/pages/Perfil.tsx:139-173).
  An upload while viewing therefore changes the draft, and the draft then no
  longer matches the loaded profile although nobody is editing
  (`ProfileScreen.UploadWhileViewingDiverges`). The new avatar is persisted
  only if the user later enters editing and saves
  (`ProfileScreen.UploadWhileViewingSavedLater`).
- Save itself never re-projects the draft. The draft is projected again
  when the form-initialisation effect sees a new `profile` or `user` object
  (src/pages/Perfil.tsx:116-126), or when a later Editar is followed by
  Cancelar (`ProfileForm.Cancel`). With the profile and identity loaded,
  that Cancelar also drops an avatar uploaded while viewing. When those objects change is outside this model.
- The email input is enabled in edit mode (src/pages/Perfil.tsx:362-369),
  but Save never sends the email (`ProfileForm.SaveIgnoresEmail`).
- The add handler has an outcome with no error and no returned row
  (src/pages/Perfil.tsx:81). It leaves the list unchanged and reports nothing
  (`SharedUsers.AddSharedUser`, status `NothingReturned`).

## Left out

- The remote collaborators are not implemented; each is an outcome
  parameter. They are the identity lookup, the `shared_access`
  insert/select/delete, `uploadAvatar` and `updateProfile`.
- The initial fetch of shared users (src/pages/Perfil.tsx:28-46) is not
  modelled. It is a remote query plus a field rename.
- `formatRegistrationDate` is not modelled. It depends on `Date` and locale
  formatting. The profile's creation timestamp and the grant's `created_at`
  (read from the clock) are left out for the same reason.
- Text.Upper: case mapping covers ASCII letters only, and every other
  character passes through. Full Unicode `toUpperCase` can change lengths
  (for example `ß` to `SS`), and that is not modelled. Characters are Dafny
  `char`s rather than UTF-16 code units.
- ProfileForm.InputChange: the field is one of the draft's five keys. The
  source accepts any string key and would add a new property for an unknown
  one, but no caller does that.
- The async handlers are modelled as single atomic steps. This leaves out
  races between overlapping add/remove calls, the remove handler's read of a
  possibly stale list, and React's effect and render scheduling. It also
  leaves out that the dialog closes and clears before the insert completes.
  That timing does not change the resulting state, because the dialog and
  the list are separate.
- Toast notifications, `console.error`, layout, the loading spinner, and the
  password-change and account-deletion dialogs are left out. They are
  presentation, or code that is not part of this model. Each add and remove
  outcome is kept as a status value instead of a toast.
- The inputs' `disabled={!isEditing}` guard (src/pages/Perfil.tsx:358, 368,
  377, 386) is not modelled. `ProfileScreen.RunEdits` accepts typing while
  viewing, which the rendered screen does not allow. On the real screen an
  avatar upload is the only way the draft changes while viewing.
- Whether the `isOpen` prop shows the dialog is up to the dialog library and
  is not modelled. The screen only tracks the flag.

=== FILE: add_shared_user_dialog.dfy ===
/** The add-shared-user dialog. It owns two text fields; its visibility is
    controlled by the parent through `isOpen`/`onClose`. Confirming with
    both fields non-empty hands the raw strings to the parent's callback,
    closes the dialog and clears the fields; Cancel and dismissing the
    dialog only ask the parent to close it. */
module AddSharedUserDialog {

  /** The dialog's own state: the two text fields. */
  datatype Fields = Fields(name: string, whatsapp: string)

  /** The observable effects of one handler, in the order they happen:
      calls to the parent's callbacks and updates of the dialog's fields. */
  datatype Effect =
    | AddUser(name: string, whatsapp: string)
    | Close
    | SetName(value: string)
    | SetWhatsapp(value: string)

  /** A handler's result: the fields afterwards and the effect trace. */
  datatype Step = Step(fields: Fields, effects: seq<Effect>)

  const EmptyFields := Fields("", "")

  /** Replaying the field updates of a trace; callbacks leave the fields
      alone. This is the meaning of a trace for the dialog's own state. */
  function Replay(fields: Fields, effects: seq<Effect>): Fields
    decreases |effects|
  {
    if |effects| == 0 then fields
    else Replay(Apply(fields, effects[0]), effects[1..])
  }

  function Apply(fields: Fields, effect: Effect): Fields
  {
    match effect
    case SetName(v) => fields.(name := v)
    case SetWhatsapp(v) => fields.(whatsapp := v)
    case _ => fields
  }

  /** The effect trace of a confirmed `handleAdd`. */
  function ConfirmEffects(name: string, whatsapp: string): (e: seq<Effect>)
    ensures AddUserCalls(e) == [(name, whatsapp)]
    ensures CloseCalls(e) == 1
    ensures forall fields :: Replay(fields, e) == EmptyFields
  {
    var e := [AddUser(name, whatsapp), Close, SetName(""), SetWhatsapp("")];
    var clear := [SetName(""), SetWhatsapp("")];
    assert e[1..] == [Close] + clear && ([Close] + clear)[1..] == clear;
    assert clear[1..] == [SetWhatsapp("")] && clear[1..][1..] == [];
    assert AddUserCalls(clear) == [] && CloseCalls(clear) == 0;
    assert AddUserCalls(e[1..]) == [];
    forall fields ensures Replay(fields, e) == EmptyFields {
      assert Replay(fields, e) == Replay(fields, clear);
    }
    e
  }

  /** The `onAddUser` calls of a trace, in order, with their arguments. */
  function AddUserCalls(effects: seq<Effect>): seq<(string, string)>
  {
    if |effects| == 0 then []
    else (match effects[0] case AddUser(n, w) => [(n, w)] case _ => []) + AddUserCalls(effects[1..])
  }

  /** The number of `onClose` calls in a trace. */
  function CloseCalls(effects: seq<Effect>): nat
  {
    if |effects| == 0 then 0
    else (if effects[0] == Close then 1 else 0) + CloseCalls(effects[1..])
  }

  /** A string is JavaScript-truthy exactly when it is non-empty; there is
      no trimming, so a lone space counts. */
  predicate Truthy(s: string)
  {
    s != ""
  }

  /** `handleAdd`: when both fields are non-empty, call `onAddUser` with
      them, then `onClose`, then clear the name and then the WhatsApp
      field; otherwise do nothing at all. */
  function HandleAdd(fields: Fields): (r: Step)
    ensures Truthy(fields.name) && Truthy(fields.whatsapp) ==>
              r.effects == [AddUser(fields.name, fields.whatsapp), Close, SetName(""), SetWhatsapp("")]
              && r.fields == EmptyFields
    ensures !(Truthy(fields.name) && Truthy(fields.whatsapp)) ==> r == Step(fields, [])
    ensures r.fields == Replay(fields, r.effects)
  {
    if Truthy(fields.name) && Truthy(fields.whatsapp) then
      Step(EmptyFields, ConfirmEffects(fields.name, fields.whatsapp))
    else Step(fields, [])
  }

  /** Confirming calls `onAddUser` exactly once, with the exact raw
      strings, precisely when both are non-empty; it closes the dialog
      exactly once and leaves both fields empty. Otherwise there is no call
      and the fields are kept. */
  lemma HandleAddCallsOnce(fields: Fields)
    ensures var r := HandleAdd(fields);
            if Truthy(fields.name) && Truthy(fields.whatsapp) then
              && AddUserCalls(r.effects) == [(fields.name, fields.whatsapp)]
              && CloseCalls(r.effects) == 1
              && r.fields == EmptyFields
            else
              && AddUserCalls(r.effects) == []
              && CloseCalls(r.effects) == 0
              && r.fields == fields
  {
  }

  /** Whitespace is not trimmed: a pair of single spaces is forwarded. */
  lemma BlankButNonEmptyIsForwarded()
    ensures AddUserCalls(HandleAdd(Fields(" ", " ")).effects) == [(" ", " ")]
  {
  }

  /** The Cancelar button: `onClose` only; the fields are kept. */
  function Cancel(fields: Fields): (r: Step)
    ensures AddUserCalls(r.effects) == [] && CloseCalls(r.effects) == 1
    ensures r.fields == fields && r.fields == Replay(fields, r.effects)
  {
    Step(fields, [Close])
  }

  /** `onOpenChange` is wired straight to `onClose`, so the requested
      visibility is ignored: the parent is asked to close and the fields
      are kept. */
  function OpenChange(fields: Fields, open: bool): (r: Step)
    ensures AddUserCalls(r.effects) == [] && CloseCalls(r.effects) == 1
    ensures r.fields == fields && r.fields == Replay(fields, r.effects)
  {
    Step(fields, [Close])
  }

  /** Typing in the name field. */
  function TypeName(fields: Fields, value: string): (r: Step)
    ensures r.fields.name == value && r.fields.whatsapp == fields.whatsapp
    ensures AddUserCalls(r.effects) == [] && CloseCalls(r.effects) == 0
    ensures r.fields == Replay(fields, r.effects)
  {
    Step(fields.(name := value), [SetName(value)])
  }

  /** Typing in the WhatsApp field. */
  function TypeWhatsapp(fields: Fields, value: string): (r: Step)
    ensures r.fields.whatsapp == value && r.fields.name == fields.name
    ensures AddUserCalls(r.effects) == [] && CloseCalls(r.effects) == 0
    ensures r.fields == Replay(fields, r.effects)
  {
    Step(fields.(whatsapp := value), [SetWhatsapp(value)])
  }

  /** Because Cancel keeps the fields, confirming after a cancel and
      reopen forwards the text typed before the cancel. */
  lemma CancelKeepsTypedText(fields: Fields)
    requires Truthy(fields.name) && Truthy(fields.whatsapp)
    ensures AddUserCalls(HandleAdd(Cancel(fields).fields).effects) == [(fields.name, fields.whatsapp)]
  {
  }
}

=== FILE: avatar.dfy ===
/** Avatar selection on the profile screen (`handleFileChange`): the
    chosen file is checked locally (image MIME type, at most 5 MiB) before
    the upload collaborator is asked for a URL, and a URL it returns
    replaces only the draft's avatar field. The file itself is uploaded to
    storage here; the profile record is not updated here, Save sends the
    avatar URL to it. */
module Avatar {
  import opened Wrappers
  import opened Text
  import opened ProfileForm

  /** One mebibyte. */
  const MiB: nat := 1024 * 1024

  /** The largest accepted avatar, in bytes (5 MiB). */
  const MaxAvatarBytes: nat := 5 * MiB

  /** MIME types of images start with this. */
  const ImagePrefix: string := "image/"

  /** What the screen knows of the chosen file. */
  datatype AvatarFile = AvatarFile(mimeType: string, size: nat)

  /** Why a file was refused before any upload. */
  datatype Rejection = NotAnImage | TooLarge

  /** The local checks, in the order the screen makes them: the type test
      comes first, so a large non-image is reported as not an image. */
  function Validate(file: AvatarFile): (r: Option<Rejection>)
    ensures r.None? <==> StartsWith(file.mimeType, ImagePrefix) && file.size <= MaxAvatarBytes
    ensures r == Some(NotAnImage) <==> !StartsWith(file.mimeType, ImagePrefix)
    ensures r == Some(TooLarge) <==> StartsWith(file.mimeType, ImagePrefix) && file.size > MaxAvatarBytes
  {
    if !StartsWith(file.mimeType, ImagePrefix) then Some(NotAnImage)
    else if file.size > MaxAvatarBytes then Some(TooLarge)
    else None
  }

  /** The outcome of one file selection: the new draft, whether the upload
      collaborator was called, and the local rejection, if any. */
  datatype FileChange = FileChange(form: FormData, uploadAttempted: bool, rejection: Option<Rejection>)

  /** `handleFileChange`. `file` is the first selected file (none when the
      picker was dismissed); `uploaded` is what the upload collaborator
      returns when it is called: a URL, or nothing on failure. A URL that
      is absent or empty (JavaScript-falsy) leaves the draft unchanged. */
  function HandleFileChange(form: FormData, file: Option<AvatarFile>, uploaded: Option<string>): (r: FileChange)
    ensures r.uploadAttempted <==> file.Some? && Validate(file.value).None?
    ensures file.Some? ==> r.rejection == Validate(file.value)
    ensures file.None? ==> r.rejection.None?
    ensures !r.uploadAttempted ==> r.form == form
    ensures r.uploadAttempted && uploaded.Some? && uploaded.value != "" ==> Get(r.form, Avatar) == uploaded.value
    ensures uploaded.None? || uploaded == Some("") ==> r.form == form
    ensures forall field :: field != Avatar ==> Get(r.form, field) == Get(form, field)
  {
    if file.None? then FileChange(form, false, None)
    else
      match Validate(file.value)
      case Some(why) => FileChange(form, false, Some(why))
      case None =>
        if uploaded.Some? && uploaded.value != "" then FileChange(Set(form, Avatar, uploaded.value), true, None)
        else FileChange(form, true, None)
  }

  /** The 5 MiB boundary, in bytes: 5242880 passes, one byte more is
      refused without an upload. */
  lemma SizeBoundary(mimeType: string, form: FormData, uploaded: Option<string>)
    requires StartsWith(mimeType, ImagePrefix)
    ensures Validate(AvatarFile(mimeType, 5242880)).None?
    ensures Validate(AvatarFile(mimeType, 5242881)) == Some(TooLarge)
    ensures !HandleFileChange(form, Some(AvatarFile(mimeType, 5242881)), uploaded).uploadAttempted
  {
  }

  /** A plain-text file is refused, whatever its size: no upload, and the
      draft's avatar is unchanged. */
  lemma TextFileRejected(size: nat, form: FormData, uploaded: Option<string>)
    ensures HandleFileChange(form, Some(AvatarFile("text/plain", size)), uploaded)
            == FileChange(form, false, Some(NotAnImage))
  {
    assert "text/plain"[..|ImagePrefix|] != ImagePrefix by {
      assert "text/plain"[0] != ImagePrefix[0];
    }
  }
}

=== FILE: initials.dfy ===
/** The avatar fallback text of the profile screen: `getInitials(name)`
    splits the display name on single spaces, keeps the first character of
    every piece, upper-cases the result and cuts it to two characters. */
module Initials {
  import opened Text

  /** The initials are never longer than this. */
  const MaxInitials: nat := 2

  /** `pieces.map(n => n[0]).join('')`: the first character of every
      non-empty piece, in order. An empty piece yields `undefined`, which
      `join` renders as the empty string, so it contributes nothing. */
  function FirstChars(pieces: seq<string>): (r: string)
    ensures |r| <= |pieces|
    ensures (forall p :: p in pieces ==> |p| > 0) ==> |r| == |pieces|
  {
    if |pieces| == 0 then ""
    else (if |pieces[0]| > 0 then [pieces[0][0]] else "") + FirstChars(pieces[1..])
  }

  /** Index `i` starts a word of `s`: a non-space character at the very
      beginning or right after a space. */
  predicate IsWordStart(s: string, i: int)
  {
    BeginsWord(s, i, true)
  }

  /** Index `i` begins a word of `s` when `s` is read in a context where
      `atBoundary` says whether the character before `s` was a space. */
  predicate BeginsWord(s: string, i: int, atBoundary: bool)
  {
    0 <= i < |s| && s[i] != Space && (if i == 0 then atBoundary else s[i - 1] == Space)
  }

  /** Reference definition, independent of splitting: the characters of `s`
      that begin a word, scanning left to right. `atBoundary` says whether
      the previous character was a space (or there was none). */
  function WordStartsFrom(s: string, atBoundary: bool): string
    decreases |s|
  {
    if |s| == 0 then ""
    else
      (if atBoundary && s[0] != Space then [s[0]] else "")
      + WordStartsFrom(s[1..], s[0] == Space)
  }

  function WordStarts(s: string): string
  {
    WordStartsFrom(s, true)
  }

  /** Taking the first character of every piece of `s.split(' ')` is the
      same as collecting the word-start characters of `s`. */
  lemma {:induction false} FirstCharsOfSplit(s: string)
    ensures FirstChars(Split(s)) == WordStartsFrom(s, true)
    decreases |s|, 1
  {
    if |s| > 0 {
      var rest := Split(s[1..]);
      if s[0] == Space {
        assert Split(s) == [""] + rest;
        assert ([""] + rest)[1..] == rest;
        FirstCharsOfSplit(s[1..]);
      } else {
        var first := [s[0]] + rest[0];
        assert Split(s) == [first] + rest[1..];
        assert ([first] + rest[1..])[1..] == rest[1..];
        FirstCharsOfSplitTail(s[1..]);
      }
    }
  }

  /** Companion of `FirstCharsOfSplit` for a string that continues a word:
      its first piece is glued onto that word, so only the later pieces
      contribute. */
  lemma {:induction false} FirstCharsOfSplitTail(s: string)
    ensures FirstChars(Split(s)[1..]) == WordStartsFrom(s, false)
    decreases |s|, 0
  {
    if |s| > 0 {
      var rest := Split(s[1..]);
      if s[0] == Space {
        assert Split(s) == [""] + rest;
        assert ([""] + rest)[1..] == rest;
        FirstCharsOfSplit(s[1..]);
      } else {
        var first := [s[0]] + rest[0];
        assert Split(s) == [first] + rest[1..];
        assert ([first] + rest[1..])[1..] == rest[1..];
        FirstCharsOfSplitTail(s[1..]);
      }
    }
  }

  /** `c` is the character at some index that begins a word of `s`. */
  ghost predicate OccursAtWordStart(s: string, atBoundary: bool, c: char)
  {
    exists i :: BeginsWord(s, i, atBoundary) && s[i] == c
  }

  /** Every collected character is the character at some index that
      begins a word. */
  lemma {:induction false} WordStartsSound(s: string, atBoundary: bool)
    ensures forall k :: 0 <= k < |WordStartsFrom(s, atBoundary)| ==>
              OccursAtWordStart(s, atBoundary, WordStartsFrom(s, atBoundary)[k])
    decreases |s|
  {
    if |s| > 0 {
      var head := if atBoundary && s[0] != Space then [s[0]] else "";
      var tail := WordStartsFrom(s[1..], s[0] == Space);
      WordStartsSound(s[1..], s[0] == Space);
      var r := WordStartsFrom(s, atBoundary);
      assert r == head + tail;
      forall k | 0 <= k < |r|
        ensures OccursAtWordStart(s, atBoundary, r[k])
      {
        if k < |head| {
          assert BeginsWord(s, 0, atBoundary) && s[0] == r[k];
        } else {
          var j := k - |head|;
          assert r[k] == tail[j];
          assert OccursAtWordStart(s[1..], s[0] == Space, tail[j]);
          var i' :| BeginsWord(s[1..], i', s[0] == Space) && s[1..][i'] == tail[j];
          assert BeginsWord(s, i' + 1, atBoundary) && s[i' + 1] == r[k];
        }
      }
    }
  }

  /** The number of collected characters is the number of word starts,
      i.e. the number of non-empty pieces of `s.split(' ')`. */
  lemma {:induction false} WordStartsCount(s: string)
    ensures |WordStarts(s)| == |FirstChars(Split(s))|
    ensures |WordStarts(s)| == |NonEmpty(Split(s))|
  {
    FirstCharsOfSplit(s);
    FirstCharsCountsNonEmpty(Split(s));
  }

  /** The non-empty pieces, in order. */
  function NonEmpty(pieces: seq<string>): seq<string>
  {
    if |pieces| == 0 then []
    else (if |pieces[0]| > 0 then [pieces[0]] else []) + NonEmpty(pieces[1..])
  }

  /** Empty pieces contribute nothing: the first characters are exactly the
      heads of the non-empty pieces. */
  lemma {:induction false} FirstCharsCountsNonEmpty(pieces: seq<string>)
    ensures |FirstChars(pieces)| == |NonEmpty(pieces)|
    ensures forall k :: 0 <= k < |FirstChars(pieces)| ==>
              |NonEmpty(pieces)[k]| > 0 && FirstChars(pieces)[k] == NonEmpty(pieces)[k][0]
  {
    if |pieces| > 0 {
      FirstCharsCountsNonEmpty(pieces[1..]);
    }
  }

  /** `getInitials(name)`. The result is the ASCII-upper-cased word-start
      characters of `name`, cut to at most two. */
  function GetInitials(name: string): (r: string)
    ensures |r| <= MaxInitials
    ensures r == Take(Upper(WordStarts(name)), MaxInitials)
  {
    FirstCharsOfSplit(name);
    Take(Upper(FirstChars(Split(name))), MaxInitials)
  }

  /** `c` is the upper-cased character at some word start of `name`. */
  ghost predicate IsInitialOf(name: string, c: char)
  {
    exists i :: IsWordStart(name, i) && c == UpperChar(name[i])
  }

  /** What each initial is: the upper-cased character found at a word
      start of `name` (the order is fixed by `GetInitials`' contract).
      There are as many initials as there are non-empty pieces, up to two,
      and none is a space. */
  lemma InitialsAreWordStarts(name: string)
    ensures |GetInitials(name)| == if |NonEmpty(Split(name))| < 2 then |NonEmpty(Split(name))| else 2
    ensures forall k :: 0 <= k < |GetInitials(name)| ==> IsInitialOf(name, GetInitials(name)[k])
    ensures forall k :: 0 <= k < |GetInitials(name)| ==> GetInitials(name)[k] != Space
  {
    var w := WordStarts(name);
    var r := GetInitials(name);
    WordStartsCount(name);
    WordStartsSound(name, true);
    forall k | 0 <= k < |r|
      ensures IsInitialOf(name, r[k])
      ensures r[k] != Space
    {
      assert r[k] == UpperChar(w[k]);
      assert OccursAtWordStart(name, true, w[k]);
      var i :| BeginsWord(name, i, true) && name[i] == w[k];
      assert IsWordStart(name, i) && r[k] == UpperChar(name[i]);
      assert UpperChar(name[i]) != Space;
    }
  }

  /** A name made only of spaces (or empty) has no initials. */
  lemma {:induction false} BlankNameHasNoInitials(name: string)
    requires forall i :: 0 <= i < |name| ==> name[i] == Space
    ensures GetInitials(name) == ""
  {
    BlankHasNoWordStarts(name, true);
  }

  lemma {:induction false} BlankHasNoWordStarts(s: string, atBoundary: bool)
    requires forall i :: 0 <= i < |s| ==> s[i] == Space
    ensures WordStartsFrom(s, atBoundary) == ""
    decreases |s|
  {
    if |s| > 0 {
      BlankHasNoWordStarts(s[1..], true);
    }
  }
}

=== FILE: profile_form.dfy ===
/** The editable draft of the profile screen and its edit-mode state
    machine: the form-initialisation effect, per-field input changes,
    Save (which leaves editing only when the profile update succeeds) and
    Cancel (which always leaves editing and restores the draft from the
    loaded profile). */
module ProfileForm {
  import opened Wrappers

  /** The stored profile as the screen sees it; every text field may be
      `null`. The creation timestamp is only formatted for display and is
      not part of this model. */
  datatype Profile = Profile(
    name: Option<string>,
    telefone: Option<string>,
    endereco: Option<string>,
    avatarUrl: Option<string>)

  /** The authenticated identity. */
  datatype User = User(id: string, email: Option<string>)

  /** The draft (`formData`): plain strings, never null. */
  datatype FormData = FormData(
    nome: string,
    email: string,
    telefone: string,
    endereco: string,
    avatar: string)

  /** The keys of the draft. */
  datatype Field = Nome | Email | Telefone | Endereco | Avatar

  datatype Mode = Viewing | Editing

  datatype EditState = EditState(mode: Mode, form: FormData)

  /** The draft before anything is loaded: every field empty. */
  const EmptyForm := FormData("", "", "", "", "")

  /** The screen when it first renders. */
  const InitialState := EditState(Viewing, EmptyForm)

  /** `value || ""` on a nullable string: null becomes the empty string. */
  function OrEmpty(value: Option<string>): (r: string)
    ensures value.None? ==> r == ""
    ensures value.Some? ==> r == value.value
  {
    match value
    case None => ""
    case Some(s) => s
  }

  function Get(form: FormData, field: Field): string
  {
    match field
    case Nome => form.nome
    case Email => form.email
    case Telefone => form.telefone
    case Endereco => form.endereco
    case Avatar => form.avatar
  }

  /** `{ ...form, [field]: value }`: the named field takes `value` and
      every other field keeps its value. */
  function Set(form: FormData, field: Field, value: string): (r: FormData)
    ensures Get(r, field) == value
    ensures forall other :: other != field ==> Get(r, other) == Get(form, other)
  {
    match field
    case Nome => form.(nome := value)
    case Email => form.(email := value)
    case Telefone => form.(telefone := value)
    case Endereco => form.(endereco := value)
    case Avatar => form.(avatar := value)
  }

  /** Two drafts are equal exactly when they agree on every field. */
  lemma FormExtensionality(a: FormData, b: FormData)
    ensures a == b <==> forall field :: Get(a, field) == Get(b, field)
  {
    if forall field :: Get(a, field) == Get(b, field) {
      assert Get(a, Nome) == Get(b, Nome);
      assert Get(a, Email) == Get(b, Email);
      assert Get(a, Telefone) == Get(b, Telefone);
      assert Get(a, Endereco) == Get(b, Endereco);
      assert Get(a, Avatar) == Get(b, Avatar);
    }
  }

  /** The draft a loaded profile and identity project to: the email comes
      from the identity, every other field from the profile, nulls read as
      empty strings. This is the object the screen builds both in the
      form-initialisation effect (src/pages/Perfil.tsx:118-124) and in
      Cancel (src/pages/Perfil.tsx:194-200). */
  function Projection(profile: Profile, user: User): FormData
  {
    FormData(
      OrEmpty(profile.name),
      OrEmpty(user.email),
      OrEmpty(profile.telefone),
      OrEmpty(profile.endereco),
      OrEmpty(profile.avatarUrl))
  }

  /** The draft is in step with the loaded profile and identity. */
  predicate InSync(s: EditState, profile: Profile, user: User)
  {
    s.form == Projection(profile, user)
  }

  /** The form-initialisation effect: once both the profile and the
      identity are present the draft is replaced by their projection;
      otherwise nothing happens. The mode is never touched. */
  function LoadProfile(s: EditState, profile: Option<Profile>, user: Option<User>): (r: EditState)
    ensures r.mode == s.mode
    ensures profile.Some? && user.Some? ==> InSync(r, profile.value, user.value)
    ensures profile.None? || user.None? ==> r == s
  {
    if profile.Some? && user.Some? then s.(form := Projection(profile.value, user.value))
    else s
  }

  /** The first render shows an empty draft in viewing mode; once the
      profile and the identity arrive the form-initialisation effect fills
      the draft with their projection and the screen is still viewing. */
  lemma LoadFromInitialState(profile: Profile, user: User)
    ensures InitialState.mode == Viewing
    ensures forall field :: Get(InitialState.form, field) == ""
    ensures LoadProfile(InitialState, Some(profile), Some(user)) == EditState(Viewing, Projection(profile, user))
  {
  }

  /** The Editar button: enters editing without touching the draft. */
  function StartEditing(s: EditState): (r: EditState)
    ensures r.mode == Editing && r.form == s.form
  {
    EditState(Editing, s.form)
  }

  /** `handleInputChange(field, value)`: the named field takes the typed
      value, every other field and the mode stay as they were. */
  function InputChange(s: EditState, field: Field, value: string): (r: EditState)
    ensures r.mode == s.mode
    ensures Get(r.form, field) == value
    ensures forall other :: other != field ==> Get(r.form, other) == Get(s.form, other)
  {
    s.(form := Set(s.form, field, value))
  }

  /** Typing the value a field already holds leaves the screen exactly as
      it was. */
  lemma RetypingIsNoChange(s: EditState, field: Field)
    ensures InputChange(s, field, Get(s.form, field)) == s
  {
    var r := InputChange(s, field, Get(s.form, field));
    FormExtensionality(r.form, s.form);
  }

  /** Two changes to the same field: only the last one is kept. */
  lemma LastInputWins(s: EditState, field: Field, first: string, second: string)
    ensures InputChange(InputChange(s, field, first), field, second) == InputChange(s, field, second)
  {
    FormExtensionality(InputChange(InputChange(s, field, first), field, second).form,
                       InputChange(s, field, second).form);
  }

  /** The fields sent to the profile-update collaborator. The email is not
      among them. */
  datatype ProfileUpdate = ProfileUpdate(
    name: string,
    telefone: string,
    endereco: string,
    avatarUrl: string)

  /** One Save click: the resulting state and the update request issued, if
      any. */
  datatype SaveStep = SaveStep(state: EditState, request: Option<ProfileUpdate>)

  /** `handleSave`. Without a loaded profile nothing happens and no request
      is made. Otherwise the draft's name, phone, address and avatar are
      sent; `succeeded` is the collaborator's answer. Editing ends only on
      success; the draft is never changed by saving. */
  function Save(s: EditState, profile: Option<Profile>, succeeded: bool): (r: SaveStep)
    ensures profile.None? ==> r.state == s && r.request.None?
    ensures profile.Some? ==> r.request.Some?
    ensures r.request.Some? ==>
              && r.request.value.name == s.form.nome
              && r.request.value.telefone == s.form.telefone
              && r.request.value.endereco == s.form.endereco
              && r.request.value.avatarUrl == s.form.avatar
    ensures r.state.form == s.form
    ensures r.state.mode == Viewing <==> (profile.Some? && succeeded) || s.mode == Viewing
    ensures !succeeded ==> r.state == s
  {
    if profile.None? then SaveStep(s, None)
    else
      var request := ProfileUpdate(s.form.nome, s.form.telefone, s.form.endereco, s.form.avatar);
      SaveStep(if succeeded then s.(mode := Viewing) else s, Some(request))
  }

  /** `handleCancel`: always back to viewing; when the profile and the
      identity are both present the draft is reset to their projection,
      otherwise it is kept as it is. */
  function Cancel(s: EditState, profile: Option<Profile>, user: Option<User>): (r: EditState)
    ensures r.mode == Viewing
    ensures profile.Some? && user.Some? ==> InSync(r, profile.value, user.value)
    ensures profile.None? || user.None? ==> r.form == s.form
  {
    LoadProfile(s, profile, user).(mode := Viewing)
  }

  /** Whatever the email field of the draft holds, the save request is the
      same: an edited email is never sent. */
  lemma SaveIgnoresEmail(s: EditState, email: string, profile: Option<Profile>, succeeded: bool)
    ensures Save(InputChange(s, Email, email), profile, succeeded).request
            == Save(s, profile, succeeded).request
  {
  }
}

=== FILE: profile_screen.dfy ===
/** The profile screen as a whole: the edit state, the shared-user list
    and the add-shared-user dialog it hosts. The dialog's `onAddUser` is
    the screen's add handler and its `onClose` hides the dialog; remote
    answers are passed in as outcomes. */
module ProfileScreen {
  import opened Wrappers
  import opened ProfileForm
  import opened Avatar
  import opened SharedUsers
  import Dialog = AddSharedUserDialog

  datatype Screen = Screen(
    edit: EditState,
    shared: seq<SharedUser>,
    dialogOpen: bool,
    dialog: Dialog.Fields)

  /** What the collaborators answer while a dialog trace is carried out. */
  datatype Environment = Environment(authUser: Option<User>, profile: Option<Profile>, insert: InsertOutcome)

  /** Carries out the effects of a dialog handler on the screen, in order:
      `onAddUser` runs the add handler on the shared list, `onClose` hides
      the dialog, and field updates change the dialog's fields. */
  function RunDialogEffects(sc: Screen, effects: seq<Dialog.Effect>, env: Environment): (r: Screen)
    ensures r.edit == sc.edit
    ensures r.dialog == Dialog.Replay(sc.dialog, effects)
    ensures Dialog.CloseCalls(effects) > 0 ==> !r.dialogOpen
    ensures Dialog.CloseCalls(effects) == 0 ==> r.dialogOpen == sc.dialogOpen
    ensures Dialog.AddUserCalls(effects) == [] ==> r.shared == sc.shared
    decreases |effects|
  {
    if |effects| == 0 then sc
    else
      var next := match effects[0]
        case AddUser(name, whatsapp) =>
          sc.(shared := AddSharedUser(sc.shared, env.authUser, env.profile, name, whatsapp, env.insert).users)
        case Close => sc.(dialogOpen := false)
        case _ => sc.(dialog := Dialog.Apply(sc.dialog, effects[0]));
      RunDialogEffects(next, effects[1..], env)
  }

  /** The dialog's Adicionar button, followed by the add handler it
      triggers. */
  function ConfirmDialog(sc: Screen, env: Environment): (r: Screen)
    ensures r.edit == sc.edit
    ensures !(Dialog.Truthy(sc.dialog.name) && Dialog.Truthy(sc.dialog.whatsapp)) ==> r == sc
  {
    RunDialogEffects(sc, Dialog.HandleAdd(sc.dialog).effects, env)
  }

  /** The dialog's Cancelar button (and, identically, dismissing it). */
  function CancelDialog(sc: Screen, env: Environment): (r: Screen)
    ensures r == sc.(dialogOpen := false)
  {
    RunDialogEffects(sc, Dialog.Cancel(sc.dialog).effects, env)
  }

  /** Confirming a filled dialog adds the typed name and WhatsApp to the
      list exactly as the add handler would, and in every case (even when
      the insert fails) closes the dialog and empties its fields. */
  lemma {:induction false} ConfirmFilledDialog(sc: Screen, env: Environment)
    requires Dialog.Truthy(sc.dialog.name) && Dialog.Truthy(sc.dialog.whatsapp)
    ensures var r := ConfirmDialog(sc, env);
            && r.shared == AddSharedUser(sc.shared, env.authUser, env.profile,
                                         sc.dialog.name, sc.dialog.whatsapp, env.insert).users
            && !r.dialogOpen
            && r.dialog == Dialog.EmptyFields
  {
  }

  /** End to end: with a signed-in owner whose phone is loaded and an
      insert that returns id `id`, confirming the dialog appends exactly
      `{id, name, whatsapp}` to the list. */
  lemma ConfirmAppendsGrant(sc: Screen, user: User, profile: Profile, id: string)
    requires Dialog.Truthy(sc.dialog.name) && Dialog.Truthy(sc.dialog.whatsapp)
    requires PhoneLoaded(Some(profile))
    ensures ConfirmDialog(sc, Environment(Some(user), Some(profile), InsertedRow(id))).shared
            == sc.shared + [SharedUser(id, sc.dialog.name, sc.dialog.whatsapp)]
  {
  }

  /** Draft changes a user can make while editing. */
  datatype EditEvent =
    | Type(field: Field, value: string)
    | PickAvatar(file: Option<AvatarFile>, uploaded: Option<string>)
    | TrySave(succeeded: bool)

  /** Applies a sequence of draft events; `profile` is what the profile
      collaborator has loaded. */
  function RunEdits(s: EditState, profile: Option<Profile>, events: seq<EditEvent>): (r: EditState)
    ensures s.mode == Viewing ==> r.mode == Viewing
    decreases |events|
  {
    if |events| == 0 then s
    else
      var next := match events[0]
        case Type(field, value) => InputChange(s, field, value)
        case PickAvatar(file, uploaded) => s.(form := HandleFileChange(s.form, file, uploaded).form)
        case TrySave(succeeded) => Save(s, profile, succeeded).state;
      RunEdits(next, profile, events[1..])
  }

  /** Typing, picking avatars and failed saves never leave editing: only a
      successful save or Cancel does. */
  lemma {:induction false} EditingPersists(s: EditState, profile: Option<Profile>, events: seq<EditEvent>)
    requires s.mode == Editing
    requires forall i :: 0 <= i < |events| ==> events[i] != TrySave(true)
    ensures RunEdits(s, profile, events).mode == Editing
    decreases |events|
  {
    if |events| > 0 {
      var next := match events[0]
        case Type(field, value) => InputChange(s, field, value)
        case PickAvatar(file, uploaded) => s.(form := HandleFileChange(s.form, file, uploaded).form)
        case TrySave(succeeded) => Save(s, profile, succeeded).state;
      assert next.mode == Editing;
      EditingPersists(next, profile, events[1..]);
    }
  }

  /** Entering edit mode, changing the draft in any way and cancelling
      restores the draft the screen showed before editing, field for
      field, provided it was in step with the loaded profile. */
  lemma CancelRestoresDraft(s: EditState, profile: Profile, user: User, events: seq<EditEvent>)
    requires InSync(s, profile, user)
    ensures Cancel(RunEdits(StartEditing(s), Some(profile), events), Some(profile), Some(user))
            == s.(mode := Viewing)
  {
  }

  /** The avatar handler does not look at the mode: an accepted file
      whose upload returns a new URL changes the draft while the screen is
      viewing, so the draft no longer matches the loaded profile although
      nobody is editing. */
  lemma UploadWhileViewingDiverges(s: EditState, profile: Profile, user: User, file: AvatarFile, url: string)
    requires s.mode == Viewing && InSync(s, profile, user)
    requires Validate(file).None?
    requires url != "" && profile.avatarUrl != Some(url)
    ensures RunEdits(s, Some(profile), [PickAvatar(Some(file), Some(url))]).mode == Viewing
    ensures !InSync(RunEdits(s, Some(profile), [PickAvatar(Some(file), Some(url))]), profile, user)
  {
  }

  /** The avatar uploaded while viewing is not lost: it stays in the draft,
      and the next Editar followed by a successful Salvar sends it to the
      profile store. */
  lemma UploadWhileViewingSavedLater(s: EditState, profile: Profile, file: AvatarFile, url: string)
    requires s.mode == Viewing
    requires Validate(file).None?
    requires url != ""
    ensures var viewed := RunEdits(s, Some(profile), [PickAvatar(Some(file), Some(url))]);
            var saved := Save(StartEditing(viewed), Some(profile), true);
            && saved.request.Some?
            && saved.request.value.avatarUrl == url
            && saved.state.mode == Viewing
  {
    var pick := PickAvatar(Some(file), Some(url));
    var next := s.(form := HandleFileChange(s.form, Some(file), Some(url)).form);
    assert [pick][1..] == [];
    assert RunEdits(s, Some(profile), [pick]) == next;
  }
}

=== FILE: shared_users.dfy ===
/** The profile screen's list of shared-access users. An entry is appended
    only after the remote insert returns the new row's id, and entries are
    filtered out by id only after the remote delete succeeds; any failure
    leaves the list as it was. Duplicates are allowed. */
module SharedUsers {
  import opened Wrappers
  import opened ProfileForm

  /** One row of the list as the screen keeps it. */
  datatype SharedUser = SharedUser(id: string, name: string, whatsapp: string)

  /** The `shared_access` row the screen asks the grant store to insert.
      The creation timestamp, read from the clock, is not modelled. */
  datatype GrantRecord = GrantRecord(
    userId: string,
    ownerUserId: string,
    ownerUserPhone: string,
    sharedUserName: string,
    sharedUserWhatsapp: string)

  /** What the insert-and-select call answers: an error, the new row's id,
      or (without an error) no row at all. */
  datatype InsertOutcome = InsertError(message: string) | InsertedRow(id: string) | NoRow

  /** How an add ended. `NotSignedIn` and `NothingReturned` are silent;
      `ProfileNotReady`, `AddFailed` (with the store's message) and `Added`
      are reported. */
  datatype AddStatus = NotSignedIn | ProfileNotReady | AddFailed(message: string) | Added | NothingReturned

  /** The list after the add, the insert issued (if any) and how it ended. */
  datatype AddResult = AddResult(users: seq<SharedUser>, request: Option<GrantRecord>, status: AddStatus)

  /** The profile's phone is loaded: present and non-empty. This is the
      negation of the add handler's guard `!profile || !profile.telefone`
      (src/pages/Perfil.tsx:52). */
  predicate PhoneLoaded(profile: Option<Profile>)
  {
    profile.Some? && profile.value.telefone.Some? && profile.value.telefone.value != ""
  }

  /** `handleAddSharedUser(name, whatsapp)`. `authUser` is the identity
      the auth collaborator returns; `insert` is the grant store's answer,
      consulted only when an insert is issued. */
  function AddSharedUser(
    users: seq<SharedUser>, authUser: Option<User>, profile: Option<Profile>,
    name: string, whatsapp: string, insert: InsertOutcome): (r: AddResult)
    ensures r.request.Some? <==> authUser.Some? && PhoneLoaded(profile)
    ensures authUser.None? ==> r.status == NotSignedIn
    ensures authUser.Some? && !PhoneLoaded(profile) ==> r.status == ProfileNotReady
    ensures r.request.Some? ==>
              && r.request.value.userId == authUser.value.id
              && r.request.value.ownerUserId == authUser.value.id
              && r.request.value.ownerUserPhone == profile.value.telefone.value
              && r.request.value.sharedUserName == name
              && r.request.value.sharedUserWhatsapp == whatsapp
    ensures r.status == Added <==> r.request.Some? && insert.InsertedRow?
    ensures r.request.Some? ==>
              r.status == match insert
                          case InsertError(message) => AddFailed(message)
                          case InsertedRow(_) => Added
                          case NoRow => NothingReturned
    ensures r.status == Added ==> r.users == users + [SharedUser(insert.id, name, whatsapp)]
    ensures r.status != Added ==> r.users == users
  {
    if authUser.None? then AddResult(users, None, NotSignedIn)
    else if !PhoneLoaded(profile) then AddResult(users, None, ProfileNotReady)
    else
      var owner := authUser.value.id;
      var request := GrantRecord(owner, owner, profile.value.telefone.value, name, whatsapp);
      match insert
      case InsertError(message) => AddResult(users, Some(request), AddFailed(message))
      case InsertedRow(id) => AddResult(users + [SharedUser(id, name, whatsapp)], Some(request), Added)
      case NoRow => AddResult(users, Some(request), NothingReturned)
  }

  /** A successful add grows the list by exactly one entry, keeps the old
      entries as a prefix and puts the new one last; any other outcome
      leaves the list untouched. */
  lemma AddAppendsOne(
    users: seq<SharedUser>, authUser: Option<User>, profile: Option<Profile>,
    name: string, whatsapp: string, insert: InsertOutcome)
    ensures var r := AddSharedUser(users, authUser, profile, name, whatsapp, insert);
            if authUser.Some? && PhoneLoaded(profile) && insert.InsertedRow? then
              && |r.users| == |users| + 1
              && r.users[..|users|] == users
              && r.users[|users|] == SharedUser(insert.id, name, whatsapp)
            else r.users == users
  {
  }

  /** `users.filter(u => u.id !== id)`. */
  function RemoveById(users: seq<SharedUser>, id: string): (r: seq<SharedUser>)
    ensures forall u :: u in r <==> u in users && u.id != id
    ensures |r| <= |users|
  {
    if |users| == 0 then []
    else if users[0].id != id then [users[0]] + RemoveById(users[1..], id)
    else RemoveById(users[1..], id)
  }

  /** Filtering works piecewise, so the surviving entries keep their
      original relative order. */
  lemma {:induction false} RemoveByIdDistributes(a: seq<SharedUser>, b: seq<SharedUser>, id: string)
    ensures RemoveById(a + b, id) == RemoveById(a, id) + RemoveById(b, id)
  {
    if |a| == 0 {
      assert a + b == b;
    } else {
      assert (a + b)[0] == a[0];
      assert (a + b)[1..] == a[1..] + b;
      RemoveByIdDistributes(a[1..], b, id);
    }
  }

  /** Filtering a list with no entry of that id changes nothing. */
  lemma {:induction false} RemoveAbsentId(users: seq<SharedUser>, id: string)
    requires forall u :: u in users ==> u.id != id
    ensures RemoveById(users, id) == users
  {
    if |users| > 0 {
      assert users[0] in users;
      assert forall u :: u in users[1..] ==> u in users;
      RemoveAbsentId(users[1..], id);
      assert users == [users[0]] + users[1..];
    }
  }

  /** Removing the same id twice is the same as removing it once. */
  lemma RemoveByIdIdempotent(users: seq<SharedUser>, id: string)
    ensures RemoveById(RemoveById(users, id), id) == RemoveById(users, id)
  {
  }

  /** The number of entries with the given id. */
  function CountId(users: seq<SharedUser>, id: string): nat
  {
    if |users| == 0 then 0
    else (if users[0].id == id then 1 else 0) + CountId(users[1..], id)
  }

  /** Exactly the entries with that id disappear. */
  lemma {:induction false} RemoveByIdLength(users: seq<SharedUser>, id: string)
    ensures |RemoveById(users, id)| == |users| - CountId(users, id)
  {
    if |users| > 0 {
      RemoveByIdLength(users[1..], id);
    }
  }

  datatype DeleteOutcome = Deleted | DeleteError(message: string)

  datatype RemoveStatus = Removed | RemoveFailed(message: string)

  /** `handleRemoveSharedUser(id)`: one delete request for `id` is always
      issued; only when it succeeds are the entries with that id filtered
      out of the list. */
  function RemoveSharedUser(users: seq<SharedUser>, id: string, delete: DeleteOutcome): (r: (seq<SharedUser>, RemoveStatus))
    ensures delete.DeleteError? ==> r.0 == users && r.1 == RemoveFailed(delete.message)
    ensures delete.Deleted? ==> r.1 == Removed && forall u :: u in r.0 <==> u in users && u.id != id
    ensures delete.Deleted? ==> r.0 == RemoveById(users, id)
    ensures delete.Deleted? ==> |r.0| == |users| - CountId(users, id)
    ensures forall u :: u in r.0 ==> u in users
  {
    match delete
    case DeleteError(message) => (users, RemoveFailed(message))
    case Deleted =>
      RemoveByIdLength(users, id);
      (RemoveById(users, id), Removed)
  }

  /** Removing one of three entries leaves the other two in their order. */
  lemma RemoveMiddleOfThree(a: SharedUser, b: SharedUser, c: SharedUser)
    requires a.id != b.id && c.id != b.id
    ensures RemoveSharedUser([a, b, c], b.id, Deleted).0 == [a, c]
  {
    assert [a, b, c][1..] == [b, c] && [b, c][1..] == [c] && [c][1..] == [];
    assert RemoveById([c], b.id) == [c];
    assert RemoveById([b, c], b.id) == [c];
  }

  /** Adding with a fresh id and then removing that id restores the list
      the screen started from. */
  lemma {:induction false} AddThenRemove(
    users: seq<SharedUser>, authUser: Option<User>, profile: Option<Profile>,
    name: string, whatsapp: string, id: string)
    requires forall u :: u in users ==> u.id != id
    ensures var added := AddSharedUser(users, authUser, profile, name, whatsapp, InsertedRow(id));
            RemoveSharedUser(added.users, id, Deleted).0 == users
  {
    var added := AddSharedUser(users, authUser, profile, name, whatsapp, InsertedRow(id));
    RemoveAbsentId(users, id);
    if added.status == Added {
      RemoveByIdDistributes(users, [SharedUser(id, name, whatsapp)], id);
    }
  }
}

=== FILE: text.dfy ===
/** String helpers with the semantics the profile screen relies on:
    prefix test, ASCII upper-casing, and splitting on a single space the
    way `String.prototype.split(' ')` does. */
module Text {

  /** The separator `getInitials` splits on. */
  const Space: char := ' '

  /** `s.startsWith(prefix)`, as in the avatar type check
      (src/pages/Perfil.tsx:143). */
  predicate StartsWith(s: string, prefix: string)
  {
    |prefix| <= |s| && s[..|prefix|] == prefix
  }

  predicate IsAsciiLower(c: char)
  {
    'a' <= c <= 'z'
  }

  /** Upper-case mapping restricted to ASCII letters; every other
      character is left as it is. */
  function UpperChar(c: char): char
  {
    if IsAsciiLower(c) then (c as int - 32) as char else c
  }

  /** `s.toUpperCase()` on the ASCII subset: same length, and each
      position holds the upper-cased character of the input. */
  function Upper(s: string): (r: string)
    ensures |r| == |s|
    ensures forall i :: 0 <= i < |s| ==> r[i] == UpperChar(s[i])
    ensures forall i :: 0 <= i < |r| ==> !IsAsciiLower(r[i])
  {
    seq(|s|, i requires 0 <= i < |s| => UpperChar(s[i]))
  }

  /** `s.slice(0, n)` for a non-negative `n`. */
  function Take(s: string, n: nat): (r: string)
    ensures |r| == if |s| <= n then |s| else n
    ensures r == s[..|r|]
    ensures |s| <= n ==> r == s
  {
    if |s| <= n then s else s[..n]
  }

  /** Inverse of `Split`: the pieces glued back together with one space
      between neighbours (`pieces.join(' ')`). */
  function Join(pieces: seq<string>): string
  {
    if |pieces| == 0 then ""
    else if |pieces| == 1 then pieces[0]
    else pieces[0] + [Space] + Join(pieces[1..])
  }

  /** `s.split(' ')`: the maximal space-free stretches of `s`, including the
      empty ones before, between and after spaces. There is always at least
      one piece (`"".split(' ')` is `[""]`). */
  function Split(s: string): (pieces: seq<string>)
    ensures |pieces| >= 1
    ensures forall p :: p in pieces ==> Space !in p
    ensures Join(pieces) == s
    decreases |s|
  {
    if |s| == 0 then [""]
    else
      var rest := Split(s[1..]);
      if s[0] == Space then
        assert Join([""] + rest) == [Space] + Join(rest);
        [""] + rest
      else
        var first := [s[0]] + rest[0];
        assert Join([first] + rest[1..]) == [s[0]] + Join(rest) by {
          if |rest| > 1 {
            assert Join(rest) == rest[0] + [Space] + Join(rest[1..]);
          }
        }
        assert s == [s[0]] + s[1..];
        [first] + rest[1..]
  }

  /** Splitting is the left inverse of joining on space-free pieces: the
      pieces are exactly recovered, empty ones included. */
  lemma {:induction false} SplitJoin(pieces: seq<string>)
    requires |pieces| >= 1
    requires forall p :: p in pieces ==> Space !in p
    ensures Split(Join(pieces)) == pieces
    decreases |Join(pieces)|
  {
    var p := pieces[0];
    if |pieces| == 1 {
      SplitSpaceFree(p);
    } else if |p| == 0 {
      var tail := pieces[1..];
      assert Join(pieces) == [Space] + Join(tail);
      assert ([Space] + Join(tail))[1..] == Join(tail);
      SplitJoin(tail);
      assert pieces == [""] + tail;
    } else {
      var shorter := [p[1..]] + pieces[1..];
      assert Space !in p[1..] by {
        assert p == pieces[0] && pieces[0] in pieces;
        assert forall j :: 0 <= j < |p[1..]| ==> p[1..][j] == p[j + 1];
      }
      assert forall q :: q in shorter ==> q == p[1..] || q in pieces[1..];
      assert Join(pieces) == [p[0]] + Join(shorter) by {
        assert p == [p[0]] + p[1..];
        if |pieces| > 1 {
          assert pieces[1..] == shorter[1..];
        }
      }
      assert ([p[0]] + Join(shorter))[1..] == Join(shorter);
      assert p[0] != Space by { assert p[0] in p; }
      SplitJoin(shorter);
      assert [p[0]] + shorter[0] == p;
      assert pieces == [p] + pieces[1..];
    }
  }

  /** A space-free string splits into itself alone. */
  lemma {:induction false} SplitSpaceFree(s: string)
    requires Space !in s
    ensures Split(s) == [s]
    decreases |s|
  {
  }
}

=== FILE: wrappers.dfy ===
/** Optional values, used for the nullable fields of the
    profile record and for the outcomes of remote calls. */
module Wrappers {

  /** A value that may be absent (`null`/`undefined` in the screen's code). */
  datatype Option<+T> = None | Some(value: T)
}
